=== FILE: README.md ===
# Chat session of the gemini-ai-clone `App` component, in Dafny

The client keeps a conversation with a chat-completion service. Its `App`
component holds three pieces of state: the list of turns (`messages`), the
text in the input box (`input`) and a flag saying a reply is awaited
(`isLoading`). Four handlers change that state:

- sending, which is split at its single `await` into `BeginSend` and `Settle`;
- starting a new chat;
- picking a suggested prompt;
- typing in the input box (its `onChange`), which sets the input as a prompt
  click does.

This project models that state machine and proves what it promises. Sending
has three parts:

- a guard rejects blank input, a missing API key and a second send while a
  reply is awaited;
- an accepted send appends the user's turn and builds a request that carries
  the whole earlier history, with role "ai" renamed "assistant";
- settling appends exactly one "ai" turn (the reply, or `"Error: " + cause`)
  and always lowers the flag.

Files:

- `js_text.dfy` (module `JsText`): JavaScript's `String.prototype.trim`,
  written as index scans over ECMAScript's WhiteSpace and LineTerminator
  code points, and the decimal text of an HTTP status.
- `completion.dfy` (module `Completion`): turns and roles, the request body,
  what a `fetch` can deliver, and the reply turn each outcome produces.
- `session.dfy` (module `ChatSession`): the session state, one event's effect
  (`Step`), and the class `Session` whose methods are the handlers. They
  update the fields in place and are proved against `Step`. A ghost field
  `inFlight` counts requests whose outcome is still awaited. The class
  invariant says there is at most one, and the flag is up exactly while there
  is one.
- `trace.dfy` (module `SessionTrace`): runs of events. These lemmas cover the
  single-in-flight invariant over any run and the append-only history without
  a new chat. They also cover the two example exchanges ("Hi" answered by
  "Hello", and "Hi" answered by HTTP 500), and what `handleNewChat` does when it
  is called while a request is in flight.

Three points of the code's own behaviour shape the model:

- `handleNewChat` (main/src/App.jsx:78-81) leaves `isLoading` as it is. If it
  is called while a request is in flight, sends are refused until that
  request settles, and the late reply then becomes the first turn of the
  emptied conversation (`SessionTrace.LateReplyLandsInNewChat`).
- Turns are stored with roles "user" and "ai"; "ai" becomes "assistant" only
  in the request (line 38).
- The send guard's `input.trim()` (line 20) only tests for blank input; the
  send button's `disabled` state (line 268) repeats that test. The appended
  turn is the untrimmed input (line 22).

## Model

| member | source | states |
|---|---|---|
| `JsText.TrimEmptyIffBlank` | main/src/App.jsx:20 | `input.trim()` is empty exactly when every character of the input is JavaScript whitespace, so the guard rejects exactly the blank inputs |
| `JsText.TrimShape` | main/src/App.jsx:20 | trimming removes only whitespace, before and after the text it keeps, and what it keeps neither starts nor ends with whitespace |
| `JsText.DecimalString` | main/src/App.jsx:50 | the status in `HTTP ${status}` is written as at least one decimal digit, only digits, with no leading zero unless it is 0 |
| `JsText.ParseDecimalString` | main/src/App.jsx:50 | reading the decimal text of a status back gives the status |
| `JsText.DecimalStringInjective` | main/src/App.jsx:50 | different statuses have different decimal texts |
| `Completion.ToWire` | main/src/App.jsx:37-40 | a turn's request entry keeps its content, and its role is "assistant" exactly for an "ai" turn and "user" exactly for a user turn |
| `Completion.FromWire` | main/src/App.jsx:38 | reading an entry back keeps its content and gives an "ai" turn exactly for role "assistant" |
| `Completion.WireHistory` | main/src/App.jsx:37-40 | the mapped history has one entry per turn, in the same order, each the turn's request entry |
| `Completion.FromWireHistory` | main/src/App.jsx:37-40 | reading the entries back gives one turn per entry, in the same order |
| `Completion.BuildRequest` | main/src/App.jsx:34-44 | the request has the fixed model and temperature and one entry more than the history; entry i keeps turn i's content and maps its role; the last entry is a user entry with the input as typed |
| `Completion.RequestRecoversHistory` | main/src/App.jsx:36-42 | reading the request's entries back gives the history followed by the new user turn, so nothing is lost or reordered |
| `Completion.Classify` | main/src/App.jsx:28-54 | an ok status (200 to 299) with a readable body is a success carrying the reply; a non-ok status with a readable body is an HTTP error keeping the status; a rejected fetch or an unreadable body is a failure with that error's message |
| `Completion.ReplyTurn` | main/src/App.jsx:50-61 | every outcome yields one "ai" turn: a success's content as is; an HTTP error gives "Error: HTTP " and the status; any other failure gives "Error: " and the cause |
| `Completion.HttpErrorReplyNamesStatus` | main/src/App.jsx:50 | two HTTP error replies are equal exactly when their statuses are equal |
| `Completion.HttpErrorReplyExample` | main/src/App.jsx:47-50 | a 500 response with a readable body is reported as "Error: HTTP 500" |
| `ChatSession.MissingKeyBlocksSend` | main/src/App.jsx:9-20 | with the key undefined or empty, `!apiKey` stops every send: the state is unchanged and no request is issued, whatever the input and the flag |
| `ChatSession.CanSend` | main/src/App.jsx:20 | the send guard passes exactly when the input is not all whitespace, the key is present and no reply is awaited |
| `Completion.IsOkStatus` | main/src/App.jsx:47 | `response.ok` holds exactly for the statuses whose decimal text is three digits led by "2" (200 to 299) |
| `JsText.DecimalStringLength` | main/src/App.jsx:50 | the status text has one digit below 10, two below 100, three led by the hundreds digit below 1000, and more from 1000 on |
| `ChatSession.Step` | main/src/App.jsx:19-81 | a request is issued exactly when a send passes the guard. A refused send changes nothing. An accepted one appends the untrimmed input as a user turn, empties the box, raises the flag, and builds the request from the history before the append. Settling appends one "ai" turn, keeps the input and lowers the flag. A new chat empties history and box and keeps the flag. A prompt click only replaces the input |
| `ChatSession.AcceptedRequestMirrorsHistory` | main/src/App.jsx:19-42 | an accepted send's request, read back, is exactly the history after the send |
| `ChatSession.Session.constructor` | main/src/App.jsx:4-9 | a new session has no turns, an empty box, the flag down, nothing in flight, and the given key |
| `ChatSession.Session.BeginSend` | main/src/App.jsx:19-45 | returns a request exactly when the guard passes. If it does not, the state is unchanged. If it does, the user turn is appended, the box is emptied and the flag raised, one request is in flight, and the request is built from the history before the append. The result agrees with `Step` and the invariant holds |
| `ChatSession.Session.Settle` | main/src/App.jsx:47-64 | for any outcome, appends exactly the reply turn after the unchanged earlier turns, keeps the input, lowers the flag and retires the request in flight; agrees with `Step` |
| `ChatSession.Session.NewChat` | main/src/App.jsx:78-81 | empties the history and the box and leaves the flag and the request in flight as they were; agrees with `Step` |
| `ChatSession.Session.PromptClick` | main/src/App.jsx:74-76 | sets the box to the given text and changes nothing else; agrees with `Step` |
| `SessionTrace.ExecKeepsSingleInFlight` | main/src/App.jsx:20-63 | along any run that settles only issued requests, there is never more than one request in flight, and the flag is up exactly while one is |
| `SessionTrace.FlagDownWhenAllSettled` | main/src/App.jsx:6-63 | from a fresh session, after any run, the flag is down exactly when no request is in flight |
| `SessionTrace.ExecAppendOnly` | main/src/App.jsx:23-61 | along any run without a new chat, the turns present at the start keep their places; the history only grows at its end |
| `SessionTrace.SendHi` | main/src/App.jsx:19-25 | typing "Hi" and sending it with a key issues one request and leaves only the user turn, an empty box and the flag up |
| `SessionTrace.HelloExchange` | main/src/App.jsx:19-63 | sending "Hi" and receiving "Hello" leaves exactly the user turn "Hi", the "ai" turn "Hello", an empty box and the flag down |
| `SessionTrace.ServerErrorExchange` | main/src/App.jsx:19-63 | sending "Hi" and receiving status 500 leaves exactly the user turn "Hi", the "ai" turn "Error: HTTP 500" and the flag down |
| `SessionTrace.LateReplyLandsInNewChat` | main/src/App.jsx:56-81 | if `handleNewChat` is called after an accepted send, the flag stays up, so a send typed afterwards is refused; the late reply then becomes the only turn and lowers the flag |

## Left out

- Rendering (JSX markup, classes, icons, prompt cards, bubbles), the scroll-to-bottom effect and the `input.length/1000` counter are presentation only.
- The `fetch` call, its URL and headers (including the bearer key), `JSON.stringify`, `response.text()`, `response.json()` and `console.error` are I/O. They appear only as the `FetchResult` and `Outcome` values, and the request body as a `Request` value.
- Reading the key from the build environment is outside the model. The key is a constructor parameter, `None` when undefined, and `!apiKey` also rejects the empty string.
- The input box's `onChange` handler performs the same update as a prompt click (it sets `input`), so it is represented by `PromptClick`. The Enter-key handler only calls `handleSend`.
- Reachability through the rendered UI is not modelled. No element calls `handleNewChat`. The input box is disabled while a reply is awaited (line 232). The send button is disabled while a reply is awaited or the input is blank (line 268); the model still lets `Submit` reach the line-20 guard, which refuses exactly those cases, so a refused `Submit` is the same no-op the disabled button gives. The prompt cards render only while there are no turns (line 107). The model still allows `NewChat` and `PromptClick` in every state, including states the rendered component cannot reach. The run lemmas hold for this larger set of runs, so they also hold for the reachable ones.
- React's scheduling is not modelled: each setter is an immediate update. A real rendered `handleSend` reads `input`, `messages` and `isLoading` as they were at its render. Two sends fired from the same render before a re-render are therefore not modelled.
- Completion.Classify: a 2xx body whose first choice has a `message` but no string `content` is not modelled. The source would append a turn whose content is `undefined` or `null`, but here a readable body always carries text.
- Completion.Request: the temperature 0.7 is kept as the exact rational 0.7, not as a double.
- ChatSession.Session.Settle: requires a request in flight. That requirement describes the event loop, which resumes the awaited code only for a request that was issued; the handler itself checks nothing.

=== FILE: completion.dfy ===
/**
 * The request pipeline of the chat client: the turns of the conversation,
 * the chat-completion request built from them, and the translation of the
 * request's outcome into the reply turn the client shows.
 */
module Completion {
  import opened JsText

  /** Who said a turn: the person typing ("user") or the model ("ai"). */
  datatype Role = User | Ai

  /** One turn of the visible conversation. */
  datatype Message = Message(role: Role, content: string)

  /** One `{role, content}` pair of the request body. */
  datatype WireMessage = WireMessage(role: string, content: string)

  /** The JSON body posted to the chat-completion endpoint. */
  datatype Request = Request(model: string, messages: seq<WireMessage>, temperature: real)

  const ModelName: string := "gpt-4o-mini"
  const Temperature: real := 0.7

  const UserWireRole: string := "user"
  const AssistantWireRole: string := "assistant"

  /** The turn a user submission appends: the input text as typed, untrimmed. */
  function UserTurn(text: string): Message {
    Message(User, text)
  }

  /** The service's name for a role: "ai" becomes "assistant", every
      other role "user"; the content travels unchanged. */
  function ToWire(m: Message): (w: WireMessage)
    ensures w.content == m.content
    ensures w.role == AssistantWireRole <==> m.role == Ai
    ensures w.role == UserWireRole <==> m.role == User
  {
    WireMessage(if m.role == Ai then AssistantWireRole else UserWireRole, m.content)
  }

  /** Reads a request entry back as a turn: "assistant" is the model, anything else the user. */
  function FromWire(w: WireMessage): (m: Message)
    ensures m.content == w.content
    ensures m.role == Ai <==> w.role == AssistantWireRole
  {
    Message(if w.role == AssistantWireRole then Ai else User, w.content)
  }

  /** `history.map(...)`: the request entry of every turn, in order. */
  function WireHistory(history: seq<Message>): (r: seq<WireMessage>)
    ensures |r| == |history|
    ensures forall i :: 0 <= i < |history| ==> r[i] == ToWire(history[i])
  {
    if history == [] then [] else WireHistory(history[..|history| - 1]) + [ToWire(history[|history| - 1])]
  }

  /** The turns a list of request entries stands for, in order. */
  function FromWireHistory(entries: seq<WireMessage>): (r: seq<Message>)
    ensures |r| == |entries|
    ensures forall i :: 0 <= i < |entries| ==> r[i] == FromWire(entries[i])
  {
    if entries == [] then [] else FromWireHistory(entries[..|entries| - 1]) + [FromWire(entries[|entries| - 1])]
  }

  /** The request for a submission of `input` made while the conversation is
      `history`: one entry per earlier turn, in order, then the new user turn,
      with the fixed model and temperature. */
  function BuildRequest(history: seq<Message>, input: string): (r: Request)
    ensures r.model == ModelName && r.temperature == Temperature
    ensures |r.messages| == |history| + 1
    ensures forall i :: 0 <= i < |history| ==>
      r.messages[i].content == history[i].content &&
      (r.messages[i].role == AssistantWireRole <==> history[i].role == Ai) &&
      (r.messages[i].role == UserWireRole <==> history[i].role == User)
    ensures r.messages[|history|] == WireMessage(UserWireRole, input)
  {
    Request(ModelName, WireHistory(history) + [WireMessage(UserWireRole, input)], Temperature)
  }

  /** The request loses nothing: reading its entries back gives the
      conversation as it stands once the user turn is appended. */
  lemma RequestRecoversHistory(history: seq<Message>, input: string)
    ensures FromWireHistory(BuildRequest(history, input).messages) == history + [UserTurn(input)]
  {
  }

  /** How the single `await` of a submission settles, as the source sees it. */
  datatype Outcome =
    | Ok(content: string)        // 2xx and `choices[0].message.content` read
    | HttpError(status: nat)     // the response was not ok
    | Failure(cause: string)     // anything thrown: transport, JSON parse, missing fields

  /** What the response body yields when it is read. */
  datatype Body =
    | Readable(content: string)     // the body reads, and (for 2xx) holds `choices[0].message.content`
    | BodyError(cause: string)      // reading or parsing the body throws, with this message

  /** What `fetch` delivers: a rejection, or a response with a status and a body. */
  datatype FetchResult =
    | Rejected(cause: string)
    | Responded(status: nat, body: Body)

  /** `response.ok`: the status is in the range 200 to 299. */
  predicate IsOkStatus(status: nat)
    ensures IsOkStatus(status) <==> |DecimalString(status)| == 3 && DecimalString(status)[0] == '2'
  {
    DecimalStringLength(status);
    200 <= status <= 299
  }

  /** The outcome the try block reaches for a fetch result: a rejected fetch or a
      body that cannot be read fails with its own cause; otherwise a non-ok
      status is an HTTP error and an ok status yields the completion text. */
  function Classify(f: FetchResult): (o: Outcome)
    ensures o.Ok? <==> f.Responded? && IsOkStatus(f.status) && f.body.Readable?
    ensures o.Ok? ==> o.content == f.body.content
    ensures o.HttpError? <==> f.Responded? && !IsOkStatus(f.status) && f.body.Readable?
    ensures o.HttpError? ==> o.status == f.status
    ensures o.Failure? ==> o.cause == (if f.Rejected? then f.cause else f.body.cause)
  {
    match f
    case Rejected(cause) => Failure(cause)
    case Responded(status, body) =>
      match body
      case BodyError(cause) => Failure(cause)
      case Readable(content) => if IsOkStatus(status) then Ok(content) else HttpError(status)
  }

  const ErrorPrefix: string := "Error: "

  /** `error.message` of the error the catch block receives. */
  function ErrorMessage(o: Outcome): string
    requires !o.Ok?
  {
    match o
    case HttpError(status) => "HTTP " + DecimalString(status)
    case Failure(cause) => cause
  }

  /** The content of the one "ai" turn a settled request appends. */
  function ReplyText(o: Outcome): string {
    if o.Ok? then o.content else ErrorPrefix + ErrorMessage(o)
  }

  /** The turn a settled request appends. */
  function ReplyTurn(o: Outcome): (m: Message)
    ensures m.role == Ai
    ensures o.Ok? ==> m.content == o.content
    ensures !o.Ok? ==> |m.content| >= |ErrorPrefix| && m.content[..|ErrorPrefix|] == ErrorPrefix
    ensures o.HttpError? ==> m.content == "Error: HTTP " + DecimalString(o.status)
    ensures o.Failure? ==> m.content == "Error: " + o.cause
  {
    Message(Ai, ReplyText(o))
  }

  /** An HTTP error reply names its status: two statuses give the same reply
      text only when they are the same status. */
  lemma HttpErrorReplyNamesStatus(a: nat, b: nat)
    ensures ReplyText(HttpError(a)) == ReplyText(HttpError(b)) <==> a == b
  {
    var lead := ErrorPrefix + "HTTP ";
    assert ReplyText(HttpError(a)) == lead + DecimalString(a);
    assert ReplyText(HttpError(b)) == lead + DecimalString(b);
    SameLeadSameRest(lead, DecimalString(a), DecimalString(b));
    DecimalStringInjective(a, b);
  }

  /** Texts with a common beginning are equal only when what follows is. */
  lemma SameLeadSameRest(lead: string, x: string, y: string)
    ensures lead + x == lead + y ==> x == y
  {
    if lead + x == lead + y {
      assert x == (lead + x)[|lead|..];
    }
  }

  /** A 500 response is reported as "Error: HTTP 500". */
  lemma HttpErrorReplyExample()
    ensures ReplyText(Classify(Responded(500, Readable("Internal Server Error")))) == "Error: HTTP 500"
  {
  }
}

=== FILE: js_text.dfy ===
/**
 * The two pieces of JavaScript string behaviour the chat session relies on:
 * `String.prototype.trim`, used by the send guard to reject blank input, and
 * the decimal rendering of an integer inside a template literal, used to
 * build the "HTTP <status>" error message.
 */
module JsText {

  /** A code point that ECMAScript's `trim` removes: a WhiteSpace
      (tab, vertical tab, form feed, space, no-break space, byte order mark
      and the Unicode space separators) or a LineTerminator (line feed,
      carriage return, line and paragraph separators). */
  predicate IsWhitespace(c: char) {
    var n := c as int;
    n == 0x09 || n == 0x0A || n == 0x0B || n == 0x0C || n == 0x0D ||
    n == 0x20 || n == 0xA0 || n == 0x1680 ||
    (0x2000 <= n <= 0x200A) ||
    n == 0x2028 || n == 0x2029 || n == 0x202F || n == 0x205F ||
    n == 0x3000 || n == 0xFEFF
  }

  /** Every character of `s` is whitespace (the empty string included). */
  predicate IsBlank(s: string) {
    forall i :: 0 <= i < |s| ==> IsWhitespace(s[i])
  }

  /** The first index at or after `i` that does not hold whitespace (or `|s|`). */
  function SkipLeading(s: string, i: nat): nat
    requires i <= |s|
    decreases |s| - i
  {
    if i == |s| || !IsWhitespace(s[i]) then i else SkipLeading(s, i + 1)
  }

  /** The end of `s[lo..hi]` once its trailing whitespace is dropped. */
  function SkipTrailing(s: string, lo: nat, hi: nat): nat
    requires lo <= hi <= |s|
    decreases hi - lo
  {
    if hi == lo || !IsWhitespace(s[hi - 1]) then hi else SkipTrailing(s, lo, hi - 1)
  }

  /** The scan from `i` stops at the first non-whitespace, passing only whitespace. */
  lemma {:induction false} SkipLeadingStops(s: string, i: nat)
    requires i <= |s|
    ensures var k := SkipLeading(s, i);
      i <= k <= |s| &&
      (forall j :: i <= j < k ==> IsWhitespace(s[j])) &&
      (k == |s| || !IsWhitespace(s[k]))
    decreases |s| - i
  {
    if i < |s| && IsWhitespace(s[i]) {
      SkipLeadingStops(s, i + 1);
    }
  }

  /** The scan back from `hi` stops after the last non-whitespace above `lo`,
      passing only whitespace. */
  lemma {:induction false} SkipTrailingStops(s: string, lo: nat, hi: nat)
    requires lo <= hi <= |s|
    ensures var e := SkipTrailing(s, lo, hi);
      lo <= e <= hi &&
      (forall j :: e <= j < hi ==> IsWhitespace(s[j])) &&
      (e == lo || !IsWhitespace(s[e - 1]))
    decreases hi - lo
  {
    if hi > lo && IsWhitespace(s[hi - 1]) {
      SkipTrailingStops(s, lo, hi - 1);
    }
  }

  /** Where the text `trim` keeps starts. */
  function TrimStartIndex(s: string): (lo: nat)
    ensures lo <= |s|
  {
    SkipLeadingStops(s, 0);
    SkipLeading(s, 0)
  }

  /** Where the text `trim` keeps ends. */
  function TrimEndIndex(s: string): (hi: nat)
    ensures TrimStartIndex(s) <= hi <= |s|
  {
    SkipTrailingStops(s, TrimStartIndex(s), |s|);
    SkipTrailing(s, TrimStartIndex(s), |s|)
  }

  /** `s.trim()`: `s` without its leading and trailing whitespace. */
  function Trim(s: string): string {
    s[TrimStartIndex(s)..TrimEndIndex(s)]
  }

  /** Trimming removes only whitespace, before and after the run it keeps,
      and that run neither starts nor ends with whitespace. */
  lemma TrimShape(s: string)
    ensures var lo, hi := TrimStartIndex(s), TrimEndIndex(s);
      (forall j :: 0 <= j < lo ==> IsWhitespace(s[j])) &&
      (forall j :: hi <= j < |s| ==> IsWhitespace(s[j])) &&
      (lo < hi ==> !IsWhitespace(s[lo]) && !IsWhitespace(s[hi - 1]))
  {
    SkipLeadingStops(s, 0);
    SkipTrailingStops(s, TrimStartIndex(s), |s|);
  }

  /** `!s.trim()` holds exactly when every character of `s` is whitespace. */
  lemma TrimEmptyIffBlank(s: string)
    ensures Trim(s) == [] <==> IsBlank(s)
  {
    TrimShape(s);
    var lo, hi := TrimStartIndex(s), TrimEndIndex(s);
    if lo < hi {
      assert Trim(s)[0] == s[lo];
    }
  }

  predicate IsDigit(c: char) {
    '0' <= c <= '9'
  }

  function DigitChar(d: nat): (c: char)
    requires d < 10
    ensures IsDigit(c) && DigitValue(c) == d
  {
    ('0' as int + d) as char
  }

  function DigitValue(c: char): nat
    requires IsDigit(c)
  {
    c as int - '0' as int
  }

  /** The decimal text of `n`, as `${n}` renders a non-negative integer:
      at least one digit, only digits, and no leading zero unless `n` is 0. */
  function DecimalString(n: nat): (r: string)
    ensures |r| >= 1
    ensures forall i :: 0 <= i < |r| ==> IsDigit(r[i])
    ensures r[0] == '0' ==> n == 0
    decreases n
  {
    if n < 10 then [DigitChar(n)] else DecimalString(n / 10) + [DigitChar(n % 10)]
  }

  /** The decimal text has one digit below 10, two below 100, three (led by
      the hundreds digit) below 1000, and more from 1000 on. */
  lemma {:induction false} DecimalStringLength(n: nat)
    ensures n < 10 ==> |DecimalString(n)| == 1
    ensures 10 <= n < 100 ==> |DecimalString(n)| == 2
    ensures 100 <= n < 1000 ==> |DecimalString(n)| == 3 && DecimalString(n)[0] == DigitChar(n / 100)
    ensures 1000 <= n ==> |DecimalString(n)| >= 4
    decreases n
  {
    if n >= 10 {
      DecimalStringLength(n / 10);
      if 100 <= n < 1000 {
        assert n / 10 / 10 == n / 100;
        DecimalStringLength(n / 10 / 10);
      }
    }
  }

  /** The number a string of decimal digits denotes. */
  function ParseDecimal(s: string): nat
    requires forall i :: 0 <= i < |s| ==> IsDigit(s[i])
  {
    if s == [] then 0 else ParseDecimal(s[..|s| - 1]) * 10 + DigitValue(s[|s| - 1])
  }

  /** Reading the decimal text back gives the number it was made from. */
  lemma {:induction false} ParseDecimalString(n: nat)
    ensures ParseDecimal(DecimalString(n)) == n
    decreases n
  {
    var r := DecimalString(n);
    if n >= 10 {
      ParseDecimalString(n / 10);
      assert r[..|r| - 1] == DecimalString(n / 10);
    }
  }

  /** Distinct numbers have distinct decimal texts. */
  lemma DecimalStringInjective(a: nat, b: nat)
    ensures DecimalString(a) == DecimalString(b) ==> a == b
  {
    ParseDecimalString(a);
    ParseDecimalString(b);
  }
}

=== FILE: session.dfy ===
/**
 * The chat session of the `App` component: the conversation, the text in the
 * input box and the "waiting for a reply" flag, and the handlers that change
 * them. Sending is split at its one `await`: `BeginSend` runs up to the
 * request, `Settle` runs when the request has settled.
 */
module ChatSession {
  import opened JsText
  import opened Completion

  /** The three pieces of component state. */
  datatype SessionState = SessionState(messages: seq<Message>, input: string, isLoading: bool)

  /** A fresh component: no turns, an empty box, nothing in flight. */
  const Initial: SessionState := SessionState([], "", false)

  datatype Option<T> = None | Some(value: T)

  /** `!apiKey` is false: the key is defined and not the empty string. */
  predicate KeyPresent(apiKey: Option<string>) {
    apiKey.Some? && apiKey.value != ""
  }

  /** The send guard passes: the input is not blank, the key is present and no
      request is in flight. */
  predicate CanSend(apiKey: Option<string>, s: SessionState)
    ensures CanSend(apiKey, s) <==> !IsBlank(s.input) && KeyPresent(apiKey) && !s.isLoading
  {
    TrimEmptyIffBlank(s.input);
    Trim(s.input) != "" && KeyPresent(apiKey) && !s.isLoading
  }

  /** What can happen to the session. */
  datatype Event =
    | Submit                      // handleSend up to its await
    | Settle(outcome: Outcome)    // the awaited request settles
    | NewChat                     // handleNewChat
    | PromptClick(text: string)   // handlePromptClick

  /** The new state after an event, and the request a submission issues. */
  datatype StepResult = StepResult(state: SessionState, request: Option<Request>)

  /** One event's effect on the session. */
  function Step(apiKey: Option<string>, s: SessionState, e: Event): (r: StepResult)
    // a request is issued exactly by a submission that passes the guard
    ensures r.request.Some? <==> e.Submit? && CanSend(apiKey, s)
    // a refused submission changes nothing
    ensures e.Submit? && !CanSend(apiKey, s) ==> r.state == s
    // an accepted one appends the untrimmed input as a user turn, empties the
    // box, raises the flag, and sends the history from before the append
    ensures r.request.Some? ==>
      r.state == SessionState(s.messages + [UserTurn(s.input)], "", true) &&
      r.request.value == BuildRequest(s.messages, s.input)
    // settling appends exactly one "ai" turn and always lowers the flag
    ensures e.Settle? ==>
      r.state == SessionState(s.messages + [ReplyTurn(e.outcome)], s.input, false)
    // a new chat empties the conversation and the box but keeps the flag
    ensures e.NewChat? ==> r.state == SessionState([], "", s.isLoading)
    ensures e.PromptClick? ==> r.state == s.(input := e.text)
  {
    match e
    case Submit =>
      if CanSend(apiKey, s) then
        StepResult(SessionState(s.messages + [UserTurn(s.input)], "", true),
                   Some(BuildRequest(s.messages, s.input)))
      else
        StepResult(s, None)
    case Settle(outcome) =>
      StepResult(s.(messages := s.messages + [ReplyTurn(outcome)], isLoading := false), None)
    case NewChat =>
      StepResult(s.(messages := [], input := ""), None)
    case PromptClick(text) =>
      StepResult(s.(input := text), None)
  }

  /** The request an accepted submission sends carries exactly the conversation
      as it stands after the submission: every earlier turn, then the new one. */
  lemma AcceptedRequestMirrorsHistory(apiKey: Option<string>, s: SessionState)
    requires CanSend(apiKey, s)
    ensures var r := Step(apiKey, s, Submit);
      r.request.Some? && FromWireHistory(r.request.value.messages) == r.state.messages
  {
  }

  /** Without a key, or with an empty one, every submission is a no-op,
      whatever the state. */
  lemma MissingKeyBlocksSend(s: SessionState)
    ensures Step(None, s, Submit) == StepResult(s, None)
    ensures Step(Some(""), s, Submit) == StepResult(s, None)
  {
  }

  /** The flag agrees with the number of requests in flight, which is at most one. */
  predicate InFlightConsistent(s: SessionState, inFlight: nat) {
    inFlight <= 1 && (s.isLoading <==> inFlight == 1)
  }

  /** The `App` component's state and handlers. */
  class Session {
    /** `import.meta.env.VITE_OPENAI_API_KEY`, fixed for the component's life. */
    const apiKey: Option<string>
    var messages: seq<Message>
    var input: string
    var isLoading: bool
    /** Requests issued whose outcome has not yet been settled. */
    ghost var inFlight: nat

    function State(): SessionState
      reads this
    {
      SessionState(messages, input, isLoading)
    }

    ghost predicate Valid()
      reads this
    {
      InFlightConsistent(State(), inFlight)
    }

    constructor (apiKey: Option<string>)
      ensures Valid()
      ensures this.apiKey == apiKey && State() == Initial && inFlight == 0
    {
      this.apiKey := apiKey;
      messages, input, isLoading := [], "", false;
      inFlight := 0;
    }

    /** handleSend up to the request: the guard, the user turn, the cleared
        box, the raised flag, and the request body. */
    method BeginSend() returns (request: Option<Request>)
      requires Valid()
      modifies this
      ensures Valid()
      ensures request.Some? <==> CanSend(apiKey, old(State()))
      ensures request.None? ==> State() == old(State()) && inFlight == old(inFlight)
      ensures request.Some? ==>
        messages == old(messages) + [UserTurn(old(input))] &&
        input == "" && isLoading && inFlight == old(inFlight) + 1 &&
        request.value == BuildRequest(old(messages), old(input))
      ensures StepResult(State(), request) == Step(apiKey, old(State()), Submit)
    {
      ghost var step := Step(apiKey, State(), Submit);
      if Trim(input) == "" || !KeyPresent(apiKey) || isLoading {
        assert step == StepResult(State(), None);
        return None;
      }
      var sent := input;
      var history := messages;
      messages := messages + [UserTurn(sent)];
      input := "";
      isLoading := true;
      inFlight := inFlight + 1;
      request := Some(BuildRequest(history, sent));
      assert step == StepResult(State(), request);
    }

    /** The rest of handleSend once the request settles: one "ai" turn with
        the reply or the error, then the finally block lowers the flag. */
    method Settle(outcome: Outcome)
      requires Valid() && inFlight > 0
      modifies this
      ensures Valid()
      ensures messages == old(messages) + [ReplyTurn(outcome)]
      ensures input == old(input) && !isLoading && inFlight == old(inFlight) - 1
      ensures State() == Step(apiKey, old(State()), Event.Settle(outcome)).state
    {
      messages := messages + [ReplyTurn(outcome)];
      isLoading := false;
      inFlight := inFlight - 1;
    }

    /** handleNewChat: empties the conversation and the box; the flag and any
        request in flight are left alone. */
    method NewChat()
      requires Valid()
      modifies this
      ensures Valid()
      ensures messages == [] && input == ""
      ensures isLoading == old(isLoading) && inFlight == old(inFlight)
      ensures State() == Step(apiKey, old(State()), Event.NewChat).state
    {
      messages := [];
      input := "";
    }

    /** handlePromptClick: a suggestion replaces the text in the box. */
    method PromptClick(text: string)
      requires Valid()
      modifies this
      ensures Valid()
      ensures input == text
      ensures messages == old(messages) && isLoading == old(isLoading) && inFlight == old(inFlight)
      ensures State() == Step(apiKey, old(State()), Event.PromptClick(text)).state
    {
      input := text;
    }
  }
}

=== FILE: trace.dfy ===
/**
 * Runs of the chat session: what any sequence of handler calls and request
 * settlements does to the session, together with the number of requests
 * whose outcome is still awaited.
 */
module SessionTrace {
  import opened JsText
  import opened Completion
  import opened ChatSession

  /** The session and the number of requests in flight. */
  datatype Config = Config(session: SessionState, inFlight: nat)

  const Start: Config := Config(Initial, 0)

  /** The configuration a run of events reaches, or None when the run settles
      a request that was never issued, which cannot happen. */
  function Exec(apiKey: Option<string>, c: Config, events: seq<Event>): Option<Config>
    decreases |events|
  {
    if events == [] then Some(c)
    else
      match Advance(apiKey, c, events[0])
      case None => None
      case Some(d) => Exec(apiKey, d, events[1..])
  }

  /** One event: a settlement retires the request in flight, an accepted
      submission adds one, and nothing else changes the count. */
  function Advance(apiKey: Option<string>, c: Config, e: Event): Option<Config> {
    if e.Settle? && c.inFlight == 0 then None
    else
      var r := Step(apiKey, c.session, e);
      var n := if e.Settle? then c.inFlight - 1
               else if r.request.Some? then c.inFlight + 1
               else c.inFlight;
      Some(Config(r.state, n))
  }

  /** The single-in-flight invariant: from a consistent configuration, every
      run keeps at most one request in flight, and the loading flag is raised
      exactly while one is. */
  lemma {:induction false} ExecKeepsSingleInFlight(apiKey: Option<string>, c: Config, events: seq<Event>)
    requires InFlightConsistent(c.session, c.inFlight)
    requires Exec(apiKey, c, events).Some?
    ensures var d := Exec(apiKey, c, events).value; InFlightConsistent(d.session, d.inFlight)
    decreases |events|
  {
    if events != [] {
      var d := Advance(apiKey, c, events[0]).value;
      ExecKeepsSingleInFlight(apiKey, d, events[1..]);
    }
  }

  /** A fresh session settles only what it has sent, and its flag is down
      again once every request it sent has settled. */
  lemma FlagDownWhenAllSettled(apiKey: Option<string>, events: seq<Event>)
    requires Exec(apiKey, Start, events).Some?
    ensures var d := Exec(apiKey, Start, events).value;
      d.inFlight <= 1 && (d.inFlight == 0 <==> !d.session.isLoading)
  {
    ExecKeepsSingleInFlight(apiKey, Start, events);
  }

  /** Without a new chat the conversation only grows: every turn present at the
      start is still there, in the same place, at the end. */
  lemma {:induction false} ExecAppendOnly(apiKey: Option<string>, c: Config, events: seq<Event>)
    requires forall i :: 0 <= i < |events| ==> !events[i].NewChat?
    requires Exec(apiKey, c, events).Some?
    ensures c.session.messages <= Exec(apiKey, c, events).value.session.messages
    decreases |events|
  {
    if events != [] {
      var d := Advance(apiKey, c, events[0]).value;
      assert c.session.messages <= d.session.messages;
      ExecAppendOnly(apiKey, d, events[1..]);
    }
  }

  /** Running an event first and then the rest is running the whole run. */
  lemma ExecCons(apiKey: Option<string>, c: Config, d: Config, e: Event, rest: seq<Event>)
    requires Advance(apiKey, c, e) == Some(d)
    ensures Exec(apiKey, c, [e] + rest) == Exec(apiKey, d, rest)
  {
  }

  /** Typing "Hi" and sending it with a key present issues one request and
      leaves the user turn, an empty box and the flag up. */
  lemma SendHi(key: string)
    requires key != ""
    ensures Advance(Some(key), Start, PromptClick("Hi")) == Some(Config(Initial.(input := "Hi"), 0))
    ensures Advance(Some(key), Config(Initial.(input := "Hi"), 0), Submit)
      == Some(Config(SessionState([UserTurn("Hi")], "", true), 1))
  {
    assert !IsBlank("Hi") by { assert !IsWhitespace("Hi"[0]); }
    TrimEmptyIffBlank("Hi");
    assert CanSend(Some(key), Initial.(input := "Hi"));
    assert [] + [UserTurn("Hi")] == [UserTurn("Hi")];
  }

  /** Typing "Hi", sending it and receiving "Hello" leaves exactly the two
      turns, an empty box and the flag down. */
  lemma HelloExchange(key: string)
    requires key != ""
    ensures Exec(Some(key), Start, [PromptClick("Hi"), Submit, Settle(Ok("Hello"))])
      == Some(Config(SessionState([UserTurn("Hi"), Message(Ai, "Hello")], "", false), 0))
  {
    var k := Some(key);
    var typed := Config(Initial.(input := "Hi"), 0);
    var sent := Config(SessionState([UserTurn("Hi")], "", true), 1);
    var done := Config(SessionState([UserTurn("Hi"), Message(Ai, "Hello")], "", false), 0);
    SendHi(key);
    assert [UserTurn("Hi")] + [ReplyTurn(Ok("Hello"))] == done.session.messages;
    ExecCons(k, Start, typed, PromptClick("Hi"), [Submit, Settle(Ok("Hello"))]);
    ExecCons(k, typed, sent, Submit, [Settle(Ok("Hello"))]);
    ExecCons(k, sent, done, Settle(Ok("Hello")), []);
  }

  /** Sending "Hi" and getting a 500 back leaves the user turn and an error
      turn naming the status, with the flag down. */
  lemma ServerErrorExchange(key: string)
    requires key != ""
    ensures Exec(Some(key), Start, [PromptClick("Hi"), Submit, Settle(HttpError(500))])
      == Some(Config(SessionState([UserTurn("Hi"), Message(Ai, "Error: HTTP 500")], "", false), 0))
  {
    var k := Some(key);
    var typed := Config(Initial.(input := "Hi"), 0);
    var sent := Config(SessionState([UserTurn("Hi")], "", true), 1);
    var done := Config(SessionState([UserTurn("Hi"), Message(Ai, "Error: HTTP 500")], "", false), 0);
    SendHi(key);
    HttpErrorReplyExample();
    assert [UserTurn("Hi")] + [ReplyTurn(HttpError(500))] == done.session.messages;
    ExecCons(k, Start, typed, PromptClick("Hi"), [Submit, Settle(HttpError(500))]);
    ExecCons(k, typed, sent, Submit, [Settle(HttpError(500))]);
    ExecCons(k, sent, done, Settle(HttpError(500)), []);
  }

  /** If `handleNewChat` is called while a request is in flight, the flag stays
      up, so a submission after it is refused, and the late reply becomes the
      first turn of the emptied conversation. (No element of the rendered
      component calls `handleNewChat`; this is what the handler itself does.) */
  lemma LateReplyLandsInNewChat(apiKey: Option<string>, s: SessionState, text: string, o: Outcome)
    requires CanSend(apiKey, s)
    ensures Exec(apiKey, Config(s, 0), [Submit, NewChat, PromptClick(text), Submit, Settle(o)])
      == Some(Config(SessionState([ReplyTurn(o)], text, false), 0))
  {
    var sent := Config(SessionState(s.messages + [UserTurn(s.input)], "", true), 1);
    var tail := [Submit, Settle(o)];
    assert [Submit, NewChat, PromptClick(text), Submit, Settle(o)]
      == [Submit] + ([NewChat, PromptClick(text)] + tail);
    AcceptedThen(apiKey, Config(s, 0), [NewChat, PromptClick(text)] + tail);
    NewChatThenType(apiKey, sent, text, tail);
    RefusedThenSettled(apiKey, [], text, o);
    assert [] + [ReplyTurn(o)] == [ReplyTurn(o)];
  }

  /** An accepted submission followed by any run. */
  lemma AcceptedThen(apiKey: Option<string>, c: Config, rest: seq<Event>)
    requires CanSend(apiKey, c.session)
    ensures Exec(apiKey, c, [Submit] + rest)
      == Exec(apiKey, Config(SessionState(c.session.messages + [UserTurn(c.session.input)], "", true), c.inFlight + 1), rest)
  {
  }

  /** A new chat and a typed text, followed by any run. */
  lemma NewChatThenType(apiKey: Option<string>, c: Config, text: string, rest: seq<Event>)
    ensures Exec(apiKey, c, [NewChat, PromptClick(text)] + rest)
      == Exec(apiKey, Config(SessionState([], text, c.session.isLoading), c.inFlight), rest)
  {
  }

  /** While a request is in flight a submission is refused; the settlement
      then appends its turn and lowers the flag. */
  lemma RefusedThenSettled(apiKey: Option<string>, messages: seq<Message>, text: string, o: Outcome)
    ensures Exec(apiKey, Config(SessionState(messages, text, true), 1), [Submit, Settle(o)])
      == Some(Config(SessionState(messages + [ReplyTurn(o)], text, false), 0))
  {
    var waiting := Config(SessionState(messages, text, true), 1);
    ExecCons(apiKey, waiting, waiting, Submit, [Settle(o)]);
    ExecCons(apiKey, waiting, Config(SessionState(messages + [ReplyTurn(o)], text, false), 0), Settle(o), []);
    assert [Submit, Settle(o)] == [Submit] + [Settle(o)];
    assert [Settle(o)] == [Settle(o)] + [];
  }
}
